=== FILE: README.md ===
# DramaShorts interaction core in Dafny

The application is a short-drama streaming page: a vertical player, an
episode grid behind a coin paywall, a comment feed and a chat with a
character backed by a hosted language model. All of its logic is UI state.
This project models that state as immutable datatypes and pure transition
functions, and it proves the properties the handlers promise.

Modules, one per source file, plus `Js` for the JavaScript built-ins they use:

- `Js`: the JavaScript built-ins the handlers rely on. These are
  `String.prototype.trim`, the decimal spelling of a number in a template
  literal, `Array.prototype.join` and `Array.prototype.findIndex`.
- `Types`: the records of `types.ts` (`Episode`, `Comment`, `SeriesData`,
  `Tab`, `ChatMessage`). The float `rating` is dropped.
- `Constants`: the seed series (twenty generated episodes, three seed
  comments) and the coin packages.
- `Gemini`: the chat bridge. It covers the transcript-to-context
  formatting, the prompt and the choice of reply: missing key, empty
  answer, or failed call. The generation service is a function parameter.
- `UnlockModal`: the paywall as a pure function from (open, cost, balance)
  to `Hidden`, `ConfirmOffered` or `PackagesOffered(rows)`, plus the
  intents its buttons can report.
- `Sidebar`: the panel's tab, its two inputs, the chat transcript and the
  typing flag. The asynchronous chat submit is split into two transitions:
  submit, then reply. An event-level `Step` adds the disabled-button
  guard and counts the requests still awaited.
- `App`: the root coordinator state {series, current episode, coins,
  modal open, pending episode} and its handlers. An event-level `Step`
  wires in the paywall's buttons, and `Deliver` wires in the sidebar's
  reports. The module proves that every reachable state is well formed.

## Behaviour worth noting

- The chat submit handler does not check `isTyping`. Only the send
  button, disabled while a reply is pending, keeps a second request from
  starting; `Sidebar.Step` models that button.
- The end of playback goes through episode selection, so a locked next
  episode opens the paywall instead of playing (`App.EpisodeEndAdvances`).

## Model

| member | source | states |
|---|---|---|
| `Js.TrimEmptyIffBlank` | components/Sidebar.tsx:24 | `!s.trim()` holds exactly when every character of `s` is ECMAScript whitespace, in both directions |
| `Js.TrimStart` | components/Sidebar.tsx:39 | leading-whitespace removal yields the longest suffix not starting with whitespace; everything dropped is whitespace |
| `Js.TrimEnd` | components/Sidebar.tsx:39 | trailing-whitespace removal yields the longest prefix not ending with whitespace; everything dropped is whitespace |
| `Js.TrimIsSlice` | components/Sidebar.tsx:39 | `s.trim()` is the slice of `s` that starts after the leading whitespace; everything cut off before and after it is whitespace, and the slice neither starts nor ends with whitespace |
| `Js.NatToString` | constants.ts:13 | the decimal spelling of a number is non-empty, all digits, without a leading zero |
| `Js.ParseNatToString` | constants.ts:13 | reading back the decimal spelling of `n` gives `n` (round trip) |
| `Js.NatToStringInjective` | constants.ts:13 | distinct ids have distinct decimal spellings |
| `Js.IntToString` | components/UnlockModal.tsx:63-64 | a number renders canonically: a minus sign exactly when negative, no leading zero except for 0 itself, and digits that read back as the magnitude |
| `Js.Join` | services/gemini.ts:18-20 | joining no lines gives the empty string and one line gives that line |
| `Js.JoinSnoc` | services/gemini.ts:18-20 | joining one more element appends separator and element, leaving the earlier text intact |
| `Js.FindIndex` | App.tsx:18 | the result is the first index whose element satisfies the predicate, or -1 exactly when none does |
| `Constants.Generate` | constants.ts:11-20 | the generator builds exactly `n` episodes, the one at index `i` generated from `i` |
| `Constants.SeedEpisode` | constants.ts:12-19 | the episode at index `i` has id `i+1`, a title of "Episódio " followed by the canonical digits of that id (no leading zero, reading back as the id), a lock exactly when `i > 2`, the shared video and duration, and the given view label |
| `Constants.SeedEpisodes` | constants.ts:11-20 | 20 episodes; index `i` has id `i+1`; locked exactly when `i > 2`; shared video and duration `1:30`; ids unique |
| `Constants.SeedTitlesDistinct` | constants.ts:12-13 | no two seed episodes share a title, because each title spells its id after the shared prefix |
| `Constants.SeedComments` | constants.ts:21-46 | three seed comments with ids 1, 2, 3 in that order |
| `Constants.MockSeries` | constants.ts:3-47 | the seed series has 20 uniquely identified episodes with the first unlocked, and 3 comments |
| `Constants.CoinPackages` | constants.ts:49-53 | three packages with strictly ascending positive amounts and non-negative bonuses |
| `Gemini.RenderTurns` | services/gemini.ts:18-19 | one line per turn, in order, each "<label>: <text>" with label 'Fã' for the fan and the character's name for the model |
| `Gemini.Context` | services/gemini.ts:18-20 | an empty history yields an empty context |
| `Gemini.ContextAppend` | services/gemini.ts:18-20 | a turn added to the history adds its line after one '\n' and keeps the earlier context unchanged |
| `Gemini.Prompt` | services/gemini.ts:34-42 | the prompt opens with the persona instruction and the history heading, and ends with the context, a blank line, "Fã: <message>" and "<character>:" |
| `Gemini.ReplyFor` | services/gemini.ts:44-53 | a non-empty answer is returned unchanged; an absent or empty answer gives "..."; a failure gives the in-character outage text; the reply is never empty |
| `Gemini.ChatWithCharacter` | services/gemini.ts:6-54 | a request is sent iff the key is non-empty; an empty key gives the configuration-error text; a sent prompt ends with the context and the tail, and the reply is the outcome's reply; never empty, never an error |
| `UnlockModal.Row` | components/UnlockModal.tsx:56-70 | a package button carries the bonus badge exactly when the bonus is positive, and shows the package's price |
| `UnlockModal.CanAfford` | components/UnlockModal.tsx:16 | the balance affords the price exactly when it leaves no shortfall, so equality is affordable |
| `UnlockModal.Rows` | components/UnlockModal.tsx:56-71 | one button per package, in catalogue order |
| `UnlockModal.View` | components/UnlockModal.tsx:13-73 | hidden iff closed whatever the coins; confirm offered iff open and balance >= cost (equality affordable); otherwise the full package list in order |
| `UnlockModal.Offers` | components/UnlockModal.tsx:30-52 | a hidden modal offers nothing; confirm is offered only by the confirm view |
| `UnlockModal.ConfirmReachableIffAffordable` | components/UnlockModal.tsx:14-52 | confirm is reachable iff the modal is open and the balance covers the cost; close is reachable iff the modal is open |
| `UnlockModal.PackageBadges` | components/UnlockModal.tsx:56-71 | when unaffordable, three package buttons appear; only the 500 and 1500 ones carry a bonus badge |
| `Sidebar.Initial` | components/Sidebar.tsx:14-20 | Episodes tab, a transcript of one model greeting, not typing, both inputs empty |
| `Sidebar.SelectTab` | components/Sidebar.tsx:56 | a tab click changes only the active tab |
| `Sidebar.EditChat` | components/Sidebar.tsx:232 | typing in the chat box changes only the chat input |
| `Sidebar.EditComment` | components/Sidebar.tsx:173 | typing in the comment box changes only the comment draft |
| `Sidebar.SubmitChat` | components/Sidebar.tsx:22-31 | blank input changes nothing and sends nothing; otherwise it clears the input, appends the fan's turn and sets typing, and it asks the bridge with the history from before that turn |
| `Sidebar.ReceiveReply` | components/Sidebar.tsx:33-34 | the reply clears typing and appends exactly one model turn after the unchanged earlier turns |
| `Sidebar.SubmitComment` | components/Sidebar.tsx:37-42 | a blank draft is ignored; otherwise the draft is reported verbatim, untrimmed, once, and the box is cleared |
| `Sidebar.ChatExchange` | components/Sidebar.tsx:22-35 | one exchange grows the transcript by exactly the fan's turn then the bridge's reply to the pre-exchange history |
| `Sidebar.SendEnabledIff` | components/Sidebar.tsx:238 | the send button is enabled exactly when the input holds a non-whitespace character and no reply is pending |
| `Sidebar.Step` | components/Sidebar.tsx:22-83 | every event's result is pinned: a tab click or typing changes only its field; an episode click reports the episode and touches no state; a disabled send does nothing and an enabled one runs the chat submit, asking the bridge with the pre-submit transcript; a reply is appended and clears typing only while a request is awaited; posting runs the comment submit and reports the draft when it is not blank |
| `Sidebar.StepKeepsInv` | components/Sidebar.tsx:236-238 | every event keeps at most one request awaited, with typing set exactly while one is, and the transcript only grows at its end |
| `Sidebar.RunKeepsInv` | components/Sidebar.tsx:22-35 | over any event sequence at most one request is awaited and earlier turns are never changed |
| `Sidebar.NoSecondRequest` | components/Sidebar.tsx:238 | while a reply is awaited, pressing send does nothing and issues no request |
| `Sidebar.FromFirstRender` | components/Sidebar.tsx:14-35 | the first render satisfies the panel invariant, so after any event sequence from it at most one request is awaited, the indicator tracks it, and the greeting is still the first turn |
| `App.Initial` | App.tsx:10-14 | the series is exactly the seed series, its first episode current, 150 coins, modal closed, nothing pending; the state is well formed |
| `App.Select` | App.tsx:25-34 | a locked episode becomes pending and opens the modal, leaving current, coins and series alone; an unlocked one becomes current and nothing else changes |
| `App.UnlockById` | App.tsx:41-43 | same length; the entries with the given id lose their lock and all others are kept |
| `App.Unlock` | App.tsx:36-50 | with an episode pending and coins >= 50: coins drop by exactly 50, the series is unlocked by id, the unlocked episode is current, the modal closes and pending clears; otherwise the state is unchanged |
| `App.UnlockTouchesOnlyPending` | App.tsx:41-46 | in a well-formed state a successful unlock flips exactly the pending entry, and the new current episode equals that updated entry |
| `App.AddCoins` | App.tsx:52-56 | coins rise by exactly 100 and nothing else changes |
| `App.BuyingKeepsConfirm` | App.tsx:52-56 | buying coins never takes the paywall's confirm button away |
| `App.NewComment` | App.tsx:59-66 | the fan's comment carries the given text and stamp as id, the user 'Você', 0 likes and the time label 'Agora' |
| `App.AddComment` | App.tsx:58-71 | exactly one comment is prepended (given text, 0 likes, 'Você', 'Agora') and the old comments follow in order; nothing else changes |
| `App.CloseModal` | App.tsx:105 | the modal is hidden and the pending episode is kept |
| `App.EpisodeEnd` | App.tsx:17-23 | the end of playback never changes the series or the coins |
| `App.EpisodeEndAdvances` | App.tsx:17-23 | with the current episode at index k, the end of playback selects index k+1; a locked next episode opens the modal instead of playing; on the last episode nothing happens |
| `App.EpisodeEndFromStrayEpisode` | App.tsx:18-21 | if the current id is absent from the list, `findIndex` gives -1 and the first episode is selected |
| `App.Step` | App.tsx:75-109 | a grid click selects that episode (an index off the grid does nothing); confirm runs the unlock exactly when the paywall is open and the balance covers 50, otherwise nothing; close hides an open paywall; the coin button adds coins; end of playback and a posted comment go to their handlers |
| `App.StepKeepsWf` | App.tsx:36-54 | every event keeps the state well formed and changes episodes only by clearing lock flags; coins change only by +100, or by -50 from at least 50 |
| `App.RunKeepsWf` | App.tsx:9-71 | over any event sequence the state stays well formed and no episode is added, removed, reordered or relocked |
| `App.Reachable` | App.tsx:10-14 | from start-up, every reachable state has coins >= 0 and the 20 episodes with ids 1..20 in order |
| `App.Deliver` | App.tsx:93-98 | an episode report goes to episode selection and a comment report to `AddComment` with the given stamp; any other sidebar output leaves the coordinator unchanged |
| `App.CommentFlow` | App.tsx:58-71 | posting a blank draft leaves the comments unchanged; any other draft is prepended verbatim |

## Left out

- The player (components/VerticalPlayer.tsx) is not part of this model. Its progress and seek arithmetic is floating point on a media element. Autoplay is a browser promise. Mute, like and play are plain toggles.
- The header (components/Header.tsx) is not part of this model: it only displays the balance and forwards a click, which `App.Step`'s `BuyCoins` event stands for.
- All rendering, `window.scrollTo`, `alert` and `console` calls are left out. They are side effects with no modelled state.
- The generation client and `process.env` are left out. The key is a parameter, and the service is a function from prompt to `Responded(text)` or `Failed`.
- The random view-count labels are a parameter: `views`, one label per generated episode. The `Date.now()` comment id is the parameter `stamp`.
- The series' float `rating` and the `Tab` enum's string values are left out.
- The `await` in the chat submit is two transitions, not concurrency. A reply event arrives only while a request is awaited.
- JavaScript numbers are unbounded integers here. No reachable coin balance or id comes near the range where doubles lose precision.
- `App.EpisodeEnd`: its own contract states only what the end of playback never changes. The advance to the next episode is stated by `App.EpisodeEndAdvances`, under the well-formedness that the current episode is in the list.
- `Js.Trim`: its own contract states only the length bound. The slice characterisation is the lemma `Js.TrimIsSlice`, kept apart so that the guards built on `Trim` do not carry it into every proof.

=== FILE: app.dfy ===
/** The root coordinator: the state the application holds above all its
    components (the series with its lock flags and comments, the episode
    playing, the coin balance, the paywall's visibility and the episode
    waiting to be unlocked) and the handlers the components call. */
module App {
  import opened Js
  import opened Types
  import Constants
  import UnlockModal
  import Sidebar

  /** Balance on start-up. */
  const StartingCoins: int := 150
  /** Price of one unlock, as passed to the paywall. */
  const UnlockCost: int := 50
  /** Coins granted by the simulated purchase. */
  const PurchaseAmount: int := 100

  datatype AppState = AppState(
    series: SeriesData,
    current: Episode,
    coins: int,
    modalOpen: bool,
    pending: Option<Episode>)

  /** The state every reachable state satisfies: episode ids are unique,
      the episode playing is an unlocked entry of the list, the episode
      waiting to be unlocked is a locked entry, and the balance is never
      negative. */
  predicate Wf(s: AppState) {
    UniqueIds(s.series.episodes) &&
    s.current in s.series.episodes && !s.current.isLocked &&
    (s.pending.Some? ==> s.pending.value in s.series.episodes && s.pending.value.isLocked) &&
    s.coins >= 0
  }

  /** The first render: the seed series, its first episode playing, 150
      coins, no paywall and nothing pending. */
  function Initial(views: seq<string>): (s: AppState)
    requires |views| == Constants.SeedEpisodeCount
    ensures s.series == Constants.MockSeries(views)
    ensures Wf(s)
    ensures s.current == s.series.episodes[0] && s.coins == 150
    ensures !s.modalOpen && s.pending.None?
  {
    var series := Constants.MockSeries(views);
    AppState(series, series.episodes[0], StartingCoins, false, None)
  }

  /** `handleEpisodeSelect`: a locked episode becomes the pending one and
      opens the paywall, leaving playback, coins and the series alone; an
      unlocked one starts playing and nothing else changes. */
  function Select(s: AppState, ep: Episode): (s': AppState)
    ensures ep.isLocked ==>
      s'.pending == Some(ep) && s'.modalOpen &&
      s'.current == s.current && s'.coins == s.coins && s'.series == s.series
    ensures !ep.isLocked ==>
      s'.current == ep && s' == s.(current := s'.current)
  {
    if ep.isLocked then s.(pending := Some(ep), modalOpen := true)
    else s.(current := ep)
  }

  /** The unlock's pass over the episode list: every entry carrying the
      given id loses its lock flag, every other entry is kept as it is. */
  function UnlockById(eps: seq<Episode>, id: int): (eps': seq<Episode>)
    ensures |eps'| == |eps|
    ensures forall i :: 0 <= i < |eps| ==>
      eps'[i] == if eps[i].id == id then eps[i].(isLocked := false) else eps[i]
  {
    if eps == [] then []
    else [if eps[0].id == id then eps[0].(isLocked := false) else eps[0]] + UnlockById(eps[1..], id)
  }

  /** `handleUnlock`: with an episode pending and at least 50 coins, pay
      50, unlock the pending episode in the series, play it, close the
      paywall and forget it; otherwise do nothing at all. */
  function Unlock(s: AppState): (s': AppState)
    ensures s.pending.None? || s.coins < UnlockCost ==> s' == s
    ensures s.pending.Some? && s.coins >= UnlockCost ==>
      s'.coins == s.coins - 50 &&
      s'.current == s.pending.value.(isLocked := false) &&
      !s'.modalOpen && s'.pending.None? &&
      s'.series == s.series.(episodes := UnlockById(s.series.episodes, s.pending.value.id))
  {
    if s.pending.Some? && s.coins >= UnlockCost then
      var p := s.pending.value;
      AppState(
        s.series.(episodes := UnlockById(s.series.episodes, p.id)),
        p.(isLocked := false),
        s.coins - UnlockCost,
        false,
        None)
    else s
  }

  /** `handleAddCoins`: the simulated purchase adds 100 coins. */
  function AddCoins(s: AppState): (s': AppState)
    ensures s'.coins == s.coins + 100 && s'.(coins := s.coins) == s
  {
    s.(coins := s.coins + PurchaseAmount)
  }

  /** The comment built from the fan's text; `stamp` stands for `Date.now()`. */
  function NewComment(text: string, stamp: int): (c: Comment)
    ensures c.text == text && c.id == stamp
    ensures c.user == "Você" && c.likes == 0 && c.timestamp == "Agora"
  {
    Comment(stamp, "Você", "https://picsum.photos/seed/me/50/50", text, 0, "Agora")
  }

  /** `handleAddComment`: the new comment goes first and the earlier ones
      follow in their order; nothing else changes. */
  function AddComment(s: AppState, text: string, stamp: int): (s': AppState)
    ensures |s'.series.comments| == |s.series.comments| + 1
    ensures s'.series.comments[1..] == s.series.comments
    ensures var c := s'.series.comments[0];
      c.text == text && c.likes == 0 && c.user == "Você" && c.timestamp == "Agora" && c.id == stamp
    ensures s'.series.episodes == s.series.episodes
    ensures s' == s.(series := s'.series) && s'.series == s.series.(comments := s'.series.comments)
  {
    var cs := [NewComment(text, stamp)] + s.series.comments;
    assert cs[1..] == s.series.comments;
    s.(series := s.series.(comments := cs))
  }

  /** The paywall's close button: hides it and keeps the pending episode. */
  function CloseModal(s: AppState): (s': AppState)
    ensures !s'.modalOpen && s'.pending == s.pending
    ensures s'.(modalOpen := s.modalOpen) == s
  {
    s.(modalOpen := false)
  }

  /** `handleEpisodeEnd`: look the playing episode up by id and select the
      one after it, if there is one. When the lookup fails `findIndex`
      yields -1, so the first episode is selected. */
  function EpisodeEnd(s: AppState): (s': AppState)
    ensures s'.series == s.series && s'.coins == s.coins
  {
    var eps := s.series.episodes;
    var nextIdx := FindIndex(eps, (e: Episode) => e.id == s.current.id) + 1;
    if nextIdx < |eps| then Select(s, eps[nextIdx]) else s
  }

  /** With the playing episode at index `k`, the end of playback selects
      the episode at `k + 1`: it plays if unlocked and opens the paywall
      if locked. On the last episode nothing happens. */
  lemma EpisodeEndAdvances(s: AppState, k: nat)
    requires Wf(s)
    requires k < |s.series.episodes| && s.series.episodes[k] == s.current
    ensures k + 1 < |s.series.episodes| ==> EpisodeEnd(s) == Select(s, s.series.episodes[k + 1])
    ensures k + 1 < |s.series.episodes| && s.series.episodes[k + 1].isLocked ==>
      EpisodeEnd(s).modalOpen && EpisodeEnd(s).current == s.current &&
      EpisodeEnd(s).pending == Some(s.series.episodes[k + 1])
    ensures k + 1 == |s.series.episodes| ==> EpisodeEnd(s) == s
  {
    var eps := s.series.episodes;
    var r := FindIndex(eps, (e: Episode) => e.id == s.current.id);
    assert r != -1 by {
      assert ((e: Episode) => e.id == s.current.id)(eps[k]);
    }
    assert eps[r].id == eps[k].id;
  }

  /** When the playing episode's id is missing from the list, the end of
      playback selects the first episode. */
  lemma EpisodeEndFromStrayEpisode(s: AppState)
    requires |s.series.episodes| > 0
    requires forall i :: 0 <= i < |s.series.episodes| ==> s.series.episodes[i].id != s.current.id
    ensures EpisodeEnd(s) == Select(s, s.series.episodes[0])
  {
  }

  /** With `k` the index of the pending episode, a successful unlock
      flips that entry's lock flag and no other entry, and the episode now
      playing is that very entry of the updated list. */
  lemma UnlockTouchesOnlyPending(s: AppState, k: nat)
    requires Wf(s) && s.pending.Some? && s.coins >= UnlockCost
    requires k < |s.series.episodes| && s.series.episodes[k] == s.pending.value
    ensures var eps' := Unlock(s).series.episodes;
      |eps'| == |s.series.episodes| &&
      eps'[k] == s.series.episodes[k].(isLocked := false) &&
      (forall j :: 0 <= j < |eps'| && j != k ==> eps'[j] == s.series.episodes[j]) &&
      Unlock(s).current == eps'[k]
  {
    var eps := s.series.episodes;
    forall j | 0 <= j < |eps| && j != k
      ensures eps[j].id != s.pending.value.id
    {
    }
  }

  // ---------------------------------------------------------------------
  // Events and reachable states
  // ---------------------------------------------------------------------

  /** The events that reach the coordinator: a click on the episode at an
      index of the grid, the paywall's confirm and close buttons, the
      header's coin button, the end of playback, and a comment reported
      by the sidebar with its creation stamp. */
  datatype Event =
    | ClickEpisode(index: nat)
    | ConfirmUnlock
    | DismissModal
    | BuyCoins
    | PlaybackEnded
    | PostComment(text: string, stamp: int)

  /** One event. A grid click selects the episode at that index; the
      paywall's buttons act only while the paywall offers them, so confirm
      unlocks exactly from the open, affordable paywall and close hides an
      open one; the header's button buys coins; the end of playback and a
      posted comment go to their handlers. */
  function Step(s: AppState, e: Event): (s': AppState)
    ensures e.ClickEpisode? && e.index < |s.series.episodes| ==> s' == Select(s, s.series.episodes[e.index])
    ensures e.ClickEpisode? && e.index >= |s.series.episodes| ==> s' == s
    ensures e.ConfirmUnlock? ==> s' == if s.modalOpen && s.coins >= UnlockCost then Unlock(s) else s
    ensures e.DismissModal? ==> s' == if s.modalOpen then CloseModal(s) else s
    ensures e.BuyCoins? ==> s' == AddCoins(s)
    ensures e.PlaybackEnded? ==> s' == EpisodeEnd(s)
    ensures e.PostComment? ==> s' == AddComment(s, e.text, e.stamp)
  {
    UnlockModal.ConfirmReachableIffAffordable(s.modalOpen, UnlockCost, s.coins);
    match e
    case ClickEpisode(i) =>
      if i < |s.series.episodes| then Select(s, s.series.episodes[i]) else s
    case ConfirmUnlock =>
      if UnlockModal.Confirm in UnlockModal.Offers(UnlockModal.View(s.modalOpen, UnlockCost, s.coins))
      then Unlock(s) else s
    case DismissModal =>
      if UnlockModal.Close in UnlockModal.Offers(UnlockModal.View(s.modalOpen, UnlockCost, s.coins))
      then CloseModal(s) else s
    case BuyCoins => AddCoins(s)
    case PlaybackEnded => EpisodeEnd(s)
    case PostComment(text, stamp) => AddComment(s, text, stamp)
  }

  /** Buying coins never takes the paywall's confirm button away. */
  lemma BuyingKeepsConfirm(s: AppState)
    ensures UnlockModal.Confirm in UnlockModal.Offers(UnlockModal.View(s.modalOpen, UnlockCost, s.coins)) ==>
      UnlockModal.Confirm in UnlockModal.Offers(UnlockModal.View(AddCoins(s).modalOpen, UnlockCost, AddCoins(s).coins))
  {
    UnlockModal.ConfirmReachableIffAffordable(s.modalOpen, UnlockCost, s.coins);
    UnlockModal.ConfirmReachableIffAffordable(AddCoins(s).modalOpen, UnlockCost, AddCoins(s).coins);
  }

  function Run(s: AppState, events: seq<Event>): AppState
    decreases |events|
  {
    if events == [] then s else Run(Step(s, events[0]), events[1..])
  }

  /** The episode list only changes by unlocking: same length, same order,
      every entry kept or a locked entry with its flag cleared. */
  predicate LocksOnlyOpen(before: seq<Episode>, after: seq<Episode>) {
    |after| == |before| &&
    forall i :: 0 <= i < |before| ==>
      after[i] == before[i] || (before[i].isLocked && after[i] == before[i].(isLocked := false))
  }

  lemma LocksOnlyOpenTransitive(a: seq<Episode>, b: seq<Episode>, c: seq<Episode>)
    requires LocksOnlyOpen(a, b) && LocksOnlyOpen(b, c)
    ensures LocksOnlyOpen(a, c)
  {
    forall i | 0 <= i < |a|
      ensures c[i] == a[i] || (a[i].isLocked && c[i] == a[i].(isLocked := false))
    {
      assert b[i] == a[i] || (a[i].isLocked && b[i] == a[i].(isLocked := false));
    }
  }

  /** Every event keeps the invariant, changes the episode list only by
      unlocking, and moves the balance only by +100, or by -50 from at
      least 50. */
  lemma StepKeepsWf(s: AppState, e: Event)
    requires Wf(s)
    ensures Wf(Step(s, e))
    ensures LocksOnlyOpen(s.series.episodes, Step(s, e).series.episodes)
    ensures var c := Step(s, e).coins;
      c == s.coins || c == s.coins + 100 || (s.coins >= 50 && c == s.coins - 50)
  {
    var eps := s.series.episodes;
    var s' := Step(s, e);
    if e.ConfirmUnlock? && s' != s {
      var k :| 0 <= k < |eps| && eps[k] == s.pending.value;
      UnlockTouchesOnlyPending(s, k);
      var eps' := s'.series.episodes;
      assert UniqueIds(eps') by {
        forall i, j | 0 <= i < |eps'| && 0 <= j < |eps'| && eps'[i].id == eps'[j].id
          ensures i == j
        {
          assert eps'[i].id == eps[i].id && eps'[j].id == eps[j].id;
        }
      }
      assert s'.current in eps';
    }
  }

  /** Every reachable state keeps the invariant (so the balance is never
      negative), and no event sequence adds, removes, reorders or relocks
      an episode. */
  lemma {:induction false} RunKeepsWf(s: AppState, events: seq<Event>)
    requires Wf(s)
    ensures Wf(Run(s, events))
    ensures LocksOnlyOpen(s.series.episodes, Run(s, events).series.episodes)
    decreases |events|
  {
    if events == [] {
      assert LocksOnlyOpen(s.series.episodes, s.series.episodes);
    } else {
      var s1 := Step(s, events[0]);
      StepKeepsWf(s, events[0]);
      RunKeepsWf(s1, events[1..]);
      LocksOnlyOpenTransitive(s.series.episodes, s1.series.episodes, Run(s1, events[1..]).series.episodes);
    }
  }

  /** From start-up: twenty episodes with ids 1 to 20 in order whatever
      happens, and the balance never below zero. */
  lemma Reachable(views: seq<string>, events: seq<Event>)
    requires |views| == Constants.SeedEpisodeCount
    ensures var s := Run(Initial(views), events);
      Wf(s) && s.coins >= 0 && |s.series.episodes| == 20 &&
      forall i :: 0 <= i < 20 ==> s.series.episodes[i].id == i + 1
  {
    RunKeepsWf(Initial(views), events);
  }

  // ---------------------------------------------------------------------
  // The sidebar's reports
  // ---------------------------------------------------------------------

  /** Hands one report of the sidebar to its handler. */
  function Deliver(s: AppState, out: Sidebar.Output, stamp: int): (s': AppState)
    ensures out.ReportEpisode? ==> s' == Select(s, out.episode)
    ensures out.ReportComment? ==> s' == AddComment(s, out.text, stamp)
    ensures out.Quiet? || out.Ask? ==> s' == s
  {
    match out
    case ReportEpisode(ep) => Select(s, ep)
    case ReportComment(text) => AddComment(s, text, stamp)
    case _ => s
  }

  /** Posting from the comment box: a blank draft leaves the comment list
      as it was; any other draft is prepended verbatim, untrimmed. */
  lemma CommentFlow(s: AppState, panel: Sidebar.Panel, stamp: int)
    ensures var (_, out) := Sidebar.Step(panel, Sidebar.PressPostComment);
      var s' := Deliver(s, out, stamp);
      (IsBlank(panel.state.newComment) ==> s' == s) &&
      (!IsBlank(panel.state.newComment) ==>
        s'.series.comments == [NewComment(panel.state.newComment, stamp)] + s.series.comments)
  {
    var (_, out) := Sidebar.Step(panel, Sidebar.PressPostComment);
    if !IsBlank(panel.state.newComment) {
      assert out == Sidebar.ReportComment(panel.state.newComment);
    }
  }
}

=== FILE: constants.dfy ===
/** The seed catalogue: the one series the application shows, its twenty
    generated episodes, its three seed comments, and the coin packages the
    paywall offers. */
module Constants {
  import opened Js
  import opened Types

  /** Length of the generated episode list. */
  const SeedEpisodeCount: nat := 20

  /** Episodes at an index up to this one start unlocked ("first 3 free"). */
  const LastFreeIndex: nat := 2

  const EpisodeTitlePrefix: string := "Episódio "
  const SharedVideoUrl: string := "https://assets.mixkit.co/videos/preview/mixkit-girl-in-neon-sign-1232-large.mp4"
  const SharedDuration: string := "1:30"

  /** The episode generated at index `i`; its view-count label comes from a
      random number in the application and is a parameter here. */
  function SeedEpisode(i: nat, views: string): (ep: Episode)
    ensures ep.id == i + 1
    ensures |ep.title| > |EpisodeTitlePrefix| && ep.title[..|EpisodeTitlePrefix|] == EpisodeTitlePrefix
    ensures ep.title[|EpisodeTitlePrefix|] != '0'
    ensures var digits := ep.title[|EpisodeTitlePrefix|..];
      (forall k :: 0 <= k < |digits| ==> IsDigit(digits[k])) && ParseDecimal(digits) == ep.id
    ensures ep.isLocked <==> i > LastFreeIndex
    ensures ep.views == views && ep.videoUrl == SharedVideoUrl && ep.duration == SharedDuration
  {
    ParseNatToString(i + 1);
    assert (EpisodeTitlePrefix + NatToString(i + 1))[|EpisodeTitlePrefix|..] == NatToString(i + 1);
    Episode(
      id := i + 1,
      title := EpisodeTitlePrefix + NatToString(i + 1),
      thumbnail := "https://picsum.photos/seed/" + NatToString(i + 100) + "/300/500",
      videoUrl := SharedVideoUrl,
      isLocked := i > LastFreeIndex,
      views := views,
      duration := SharedDuration)
  }

  /** The generated episode list: twenty episodes with dense ascending ids
      from 1, of which only the first three are unlocked. `views` holds the
      view-count label drawn at random for each of them. */
  function SeedEpisodes(views: seq<string>): (eps: seq<Episode>)
    requires |views| == SeedEpisodeCount
    ensures |eps| == 20
    ensures forall i :: 0 <= i < |eps| ==> eps[i].id == i + 1
    ensures forall i :: 0 <= i < |eps| ==> (eps[i].isLocked <==> i > 2)
    ensures forall i :: 0 <= i < |eps| ==>
      eps[i].videoUrl == SharedVideoUrl && eps[i].duration == SharedDuration
    ensures UniqueIds(eps)
  {
    Generate(|views|, views)
  }

  /** The generator run over the indices `0 .. n-1`: the first `n`
      generated episodes, in index order. */
  function Generate(n: nat, views: seq<string>): (eps: seq<Episode>)
    requires n <= |views|
    ensures |eps| == n
    ensures forall i :: 0 <= i < n ==> eps[i] == SeedEpisode(i, views[i])
  {
    if n == 0 then [] else Generate(n - 1, views) + [SeedEpisode(n - 1, views[n - 1])]
  }

  /** Each seed title spells its episode's id after the shared prefix
      (see `SeedEpisode`), so no two seed titles coincide. */
  lemma SeedTitlesDistinct(views: seq<string>)
    requires |views| == SeedEpisodeCount
    ensures forall i, j :: 0 <= i < 20 && 0 <= j < 20 && i != j ==>
      SeedEpisodes(views)[i].title != SeedEpisodes(views)[j].title
  {
    var eps := SeedEpisodes(views);
    var p := |EpisodeTitlePrefix|;
    forall i, j | 0 <= i < 20 && 0 <= j < 20 && i != j
      ensures eps[i].title != eps[j].title
    {
      assert eps[i] == SeedEpisode(i, views[i]) && eps[j] == SeedEpisode(j, views[j]);
      assert ParseDecimal(eps[i].title[p..]) != ParseDecimal(eps[j].title[p..]);
    }
  }

  /** The three seed comments, oldest-posted last, with ids 1, 2 and 3. */
  function SeedComments(): (cs: seq<Comment>)
    ensures |cs| == 3
    ensures forall i :: 0 <= i < |cs| ==> cs[i].id == i + 1
  {
    [
      Comment(1, "Maria C.", "https://picsum.photos/seed/user1/50/50",
        "Eu não acredito que ela perdoou ele tão rápido! 😱", 142, "2h atrás"),
      Comment(2, "João P.", "https://picsum.photos/seed/user2/50/50",
        "A produção dessa série tá incrível. O plot twist do ep 5 foi tudo.", 89, "5h atrás"),
      Comment(3, "Ana Souza", "https://picsum.photos/seed/user3/50/50",
        "Alguém tem cupom pra desbloquear mais episódios??", 256, "1d atrás")
    ]
  }

  const SeriesDescription: string :=
    "Após anos separados, uma revelação chocante traz à tona segredos de uma família bilionária. A jovem herdeira, criada na pobreza, descobre que seus pais biológicos controlam metade da cidade."

  /** The series the application starts with. */
  function MockSeries(views: seq<string>): (s: SeriesData)
    requires |views| == SeedEpisodeCount
    ensures |s.episodes| == 20 && UniqueIds(s.episodes)
    ensures !s.episodes[0].isLocked
    ensures |s.comments| == 3
  {
    var eps := SeedEpisodes(views);
    assert eps[0].id == 1 && !eps[0].isLocked;
    SeriesData(
      id := "we-are-your-parents",
      title := "Nós Somos Seus Pais",
      description := SeriesDescription,
      tags := ["Drama", "Romance", "Vingança", "Bilionário"],
      cast := ["Sofia Martins", "Lucas Silva", "Helena Rocha"],
      totalEpisodes := 65,
      episodes := eps,
      comments := SeedComments())
  }

  /** One purchasable coin bundle shown by the paywall. */
  datatype CoinPackage = CoinPackage(amount: int, price: string, bonus: int)

  /** The bundles on offer, smallest first. */
  function CoinPackages(): (ps: seq<CoinPackage>)
    ensures |ps| == 3
    ensures forall i, j :: 0 <= i < j < |ps| ==> ps[i].amount < ps[j].amount
    ensures forall i :: 0 <= i < |ps| ==> ps[i].amount > 0 && ps[i].bonus >= 0
  {
    [
      CoinPackage(100, "R$ 4,90", 0),
      CoinPackage(500, "R$ 19,90", 50),
      CoinPackage(1500, "R$ 49,90", 200)
    ]
  }
}

=== FILE: gemini.dfy ===
/** The chat bridge: turns the fan's conversation with a character into
    one text prompt for a hosted generation model and turns the model's
    answer, or its absence, into the character's reply. The generation
    call itself is a parameter (`service`), and the API key is an input
    rather than an environment lookup. */
module Gemini {
  import opened Js
  import opened Types

  /** Returned without any request when no API key is configured. */
  const ConfigErrorReply: string :=
    "Erro: Chave de API não configurada. Por favor, configure a chave para conversar com o personagem."

  /** Returned when the generation request fails in any way. */
  const OutageReply: string :=
    "Desculpe, estou lidando com alguns problemas familiares agora. Falo com você depois."

  /** Returned when the model answers with no text. */
  const EmptyReply: string := "..."

  /** How the fan is named in the transcript sent to the model. */
  const FanLabel: string := "Fã"

  /** What the generation service did with one prompt: it answered, with a
      text that may be absent or empty, or the request threw. */
  datatype ServiceOutcome = Responded(text: Option<string>) | Failed

  /** What one call of the bridge did: the prompt it sent, if it sent one,
      and the reply it hands back to the chat panel. */
  datatype Bridge = Bridge(request: Option<string>, reply: string)

  /** The speaker label of a turn: the fan for user turns, the character
      for model turns. */
  function Label(characterName: string, role: Role): string {
    match role
    case User => FanLabel
    case Model => characterName
  }

  /** Every turn rendered as "<label>: <text>", in transcript order. */
  function RenderTurns(characterName: string, history: seq<ChatMessage>): (lines: seq<string>)
    ensures |lines| == |history|
    ensures forall i :: 0 <= i < |history| ==>
      lines[i] == Label(characterName, history[i].role) + ": " + history[i].text
  {
    if history == [] then []
    else
      RenderTurns(characterName, history[..|history| - 1])
        + [Label(characterName, history[|history| - 1].role) + ": " + history[|history| - 1].text]
  }

  /** The conversation context: the rendered turns, one per line. */
  function Context(characterName: string, history: seq<ChatMessage>): (ctx: string)
    ensures history == [] ==> ctx == []
  {
    Join(RenderTurns(characterName, history), "\n")
  }

  /** A longer transcript only extends the context: the new turn's line
      is added after one line break, and everything before it is kept. */
  lemma {:induction false} ContextAppend(characterName: string, history: seq<ChatMessage>, m: ChatMessage)
    ensures Context(characterName, history + [m]) ==
      var line := Label(characterName, m.role) + ": " + m.text;
      if history == [] then line else Context(characterName, history) + "\n" + line
  {
    var line := Label(characterName, m.role) + ": " + m.text;
    assert RenderTurns(characterName, history + [m]) == RenderTurns(characterName, history) + [line];
    JoinSnoc(RenderTurns(characterName, history), line, "\n");
  }

  const InstructionOpening: string :=
    "\n      Você está interpretando o personagem "

  const InstructionBody: string :=
    " da série de drama \"Nós Somos Seus Pais\".\n      \n      Contexto da Série:\n      Você é parte de uma família bilionária com muitos segredos. O tom é dramático, intenso e emocional.\n      Você deve responder aos fãs que estão assistindo a série.\n      Mantenha a personalidade do personagem (arrogante mas com bom coração, ou misterioso).\n      Não dê spoilers diretos do final, mas dê dicas intrigantes.\n      Responda em Português do Brasil.\n      Mantenha as respostas curtas (máximo 2 frases), como se fosse um chat rápido.\n    "

  /** The persona instruction for the character. */
  function SystemInstruction(characterName: string): string {
    InstructionOpening + characterName + InstructionBody
  }

  /** The text between the persona instruction and the context. */
  const HistoryHeading: string := "\n\n      Histórico da conversa:\n      "

  /** The blank line between the context and the new message. */
  const ContextGap: string := "\n      \n      "

  /** The end of every prompt: the fan's new message, then the character's
      name as the cue for the model to answer in character. */
  function PromptTail(characterName: string, userMessage: string): string {
    FanLabel + ": " + userMessage + "\n      " + characterName + ":\n    "
  }

  /** The whole text sent to the model. */
  function Prompt(characterName: string, history: seq<ChatMessage>, userMessage: string): (p: string)
    ensures StartsWith(p, "\n      " + SystemInstruction(characterName) + HistoryHeading)
    ensures EndsWith(p, Context(characterName, history) + ContextGap + PromptTail(characterName, userMessage))
  {
    var head := "\n      " + SystemInstruction(characterName) + HistoryHeading;
    var rest := Context(characterName, history) + ContextGap + PromptTail(characterName, userMessage);
    ConcatAffixes(head, rest);
    head + rest
  }

  /** The answer's text when it is present and non-empty, "..." when it is
      absent or empty, and the in-character outage text when the call
      failed. The reply is never empty. */
  function ReplyFor(outcome: ServiceOutcome): (reply: string)
    ensures reply != []
    ensures outcome.Failed? ==> reply == OutageReply
    ensures outcome.Responded? && outcome.text.Some? && outcome.text.value != [] ==>
      reply == outcome.text.value
    ensures outcome.Responded? && (outcome.text.None? || outcome.text.value == []) ==>
      reply == EmptyReply
  {
    match outcome
    case Failed => OutageReply
    case Responded(text) =>
      if text.Some? && text.value != [] then text.value else EmptyReply
  }

  /** `chatWithCharacter`: with no API key, answer with the configuration
      error and send nothing; otherwise send exactly one prompt and answer
      with what the service's outcome yields. No outcome escapes as an
      error. */
  function ChatWithCharacter(
    apiKey: string,
    characterName: string,
    history: seq<ChatMessage>,
    userMessage: string,
    service: string -> ServiceOutcome): (r: Bridge)
    ensures r.request.None? <==> apiKey == []
    ensures apiKey == [] ==> r.reply == ConfigErrorReply
    ensures r.request.Some? ==>
      EndsWith(r.request.value, Context(characterName, history) + ContextGap + PromptTail(characterName, userMessage)) &&
      r.reply == ReplyFor(service(r.request.value))
    ensures r.reply != []
  {
    if apiKey == [] then Bridge(None, ConfigErrorReply)
    else
      var prompt := Prompt(characterName, history, userMessage);
      Bridge(Some(prompt), ReplyFor(service(prompt)))
  }
}

=== FILE: js.dfy ===
/** The few JavaScript built-ins the application's logic leans on, stated
    over Dafny values: `String.prototype.trim`, the decimal rendering of a
    number inside a template literal, `Array.prototype.join` and
    `Array.prototype.findIndex`, plus the `T | null` option the components
    pass around. */
module Js {

  /** `T | null` / `T | undefined`. */
  datatype Option<+T> = None | Some(value: T)

  // ---------------------------------------------------------------------
  // String.prototype.trim
  // ---------------------------------------------------------------------

  /** ECMAScript's WhiteSpace and LineTerminator code points: the set that
      `trim` strips from both ends of a string. */
  predicate IsWhitespace(c: char) {
    c == '\t' || c == '\n' || c == '\U{B}' || c == '\U{C}' || c == '\r' ||
    c == ' ' || c == '\U{A0}' || c == '\U{1680}' ||
    ('\U{2000}' <= c <= '\U{200A}') ||
    c == '\U{2028}' || c == '\U{2029}' || c == '\U{202F}' || c == '\U{205F}' ||
    c == '\U{3000}' || c == '\U{FEFF}'
  }

  /** A string that `trim` turns into the empty (falsy) string. */
  predicate IsBlank(s: string) {
    forall i :: 0 <= i < |s| ==> IsWhitespace(s[i])
  }

  /** Strips leading whitespace: the result is the longest suffix of `s`
      that does not start with whitespace. */
  function TrimStart(s: string): (r: string)
    ensures |r| <= |s| && r == s[|s| - |r|..]
    ensures forall i :: 0 <= i < |s| - |r| ==> IsWhitespace(s[i])
    ensures r == [] || !IsWhitespace(r[0])
  {
    if s != [] && IsWhitespace(s[0]) then TrimStart(s[1..]) else s
  }

  /** Strips trailing whitespace: the result is the longest prefix of `s`
      that does not end with whitespace. */
  function TrimEnd(s: string): (r: string)
    ensures |r| <= |s| && r == s[..|r|]
    ensures forall i :: |r| <= i < |s| ==> IsWhitespace(s[i])
    ensures r == [] || !IsWhitespace(r[|r| - 1])
  {
    if s != [] && IsWhitespace(s[|s| - 1]) then TrimEnd(s[..|s| - 1]) else s
  }

  /** `r` is the slice of `s` at offset `k`, and everything of `s` before
      and after it is whitespace. */
  predicate BlankAround(s: string, r: string, k: nat) {
    k + |r| <= |s| && r == s[k..k + |r|] && IsBlank(s[..k]) && IsBlank(s[k + |r|..])
  }

  /** `r` neither starts nor ends with whitespace. */
  predicate Tight(r: string) {
    r == [] || (!IsWhitespace(r[0]) && !IsWhitespace(r[|r| - 1]))
  }

  /** `s.trim()` */
  function Trim(s: string): (r: string)
    ensures |r| <= |s|
  {
    TrimEnd(TrimStart(s))
  }

  /** The trimmed string is the slice of `s` left once the whitespace at
      both ends is dropped: everything cut off on either side is
      whitespace, and the slice itself neither starts nor ends with it. */
  lemma TrimIsSlice(s: string)
    ensures BlankAround(s, Trim(s), |s| - |TrimStart(s)|)
    ensures Tight(Trim(s))
  {
    var t := TrimStart(s);
    SuffixThenPrefix(s, t, TrimEnd(t));
  }

  /** A prefix `r` of a suffix `t` of `s` is a slice of `s`. When the
      suffix drops only whitespace from `s` and the prefix drops only
      whitespace from `t`, both sides of the slice are blank; and when
      neither cut leaves whitespace at its own end, the slice has none at
      either end. */
  lemma SuffixThenPrefix(s: string, t: string, r: string)
    requires |t| <= |s| && t == s[|s| - |t|..]
    requires forall i :: 0 <= i < |s| - |t| ==> IsWhitespace(s[i])
    requires t == [] || !IsWhitespace(t[0])
    requires |r| <= |t| && r == t[..|r|]
    requires forall j :: |r| <= j < |t| ==> IsWhitespace(t[j])
    requires r == [] || !IsWhitespace(r[|r| - 1])
    ensures BlankAround(s, r, |s| - |t|)
    ensures Tight(r)
  {
    var k := |s| - |t|;
    assert s[k + |r|..] == t[|r|..];
    if r != [] {
      assert r[0] == t[0];
    }
  }

  /** `!s.trim()` holds exactly for the blank strings, so a guard written
      with `trim` rejects whitespace-only input and nothing else. */
  lemma TrimEmptyIffBlank(s: string)
    ensures Trim(s) == [] <==> IsBlank(s)
  {
  }

  /** Specification predicate: `t` is a prefix of `s`. */
  predicate StartsWith(s: string, t: string) {
    |t| <= |s| && s[..|t|] == t
  }

  /** Specification predicate: `t` is a suffix of `s`. */
  predicate EndsWith(s: string, t: string) {
    |t| <= |s| && s[|s| - |t|..] == t
  }

  /** A concatenation starts with its first part and ends with its second. */
  lemma ConcatAffixes(a: string, b: string)
    ensures StartsWith(a + b, a) && EndsWith(a + b, b)
  {
    assert (a + b)[..|a|] == a;
    assert (a + b)[|a + b| - |b|..] == b;
  }

  // ---------------------------------------------------------------------
  // Decimal rendering of integers (`${n}` in a template literal)
  // ---------------------------------------------------------------------

  predicate IsDigit(c: char) {
    '0' <= c <= '9'
  }

  function DigitValue(c: char): nat
    requires IsDigit(c)
  {
    c as int - '0' as int
  }

  function DigitChar(d: nat): (c: char)
    requires d < 10
    ensures IsDigit(c) && DigitValue(c) == d
  {
    ('0' as int + d) as char
  }

  /** The canonical decimal spelling of a natural number: digits only, and
      no leading zero unless the number is zero itself. */
  function NatToString(n: nat): (r: string)
    ensures |r| >= 1
    ensures forall i :: 0 <= i < |r| ==> IsDigit(r[i])
    ensures r[0] == '0' ==> n == 0 && |r| == 1
  {
    if n < 10 then [DigitChar(n)] else NatToString(n / 10) + [DigitChar(n % 10)]
  }

  /** `${n}` for any integer, with a leading minus sign for negatives. */
  function IntToString(n: int): (r: string)
    ensures |r| >= 1
    ensures r[0] == '-' <==> n < 0
    ensures n >= 0 && r[0] == '0' ==> n == 0 && |r| == 1
    ensures n < 0 ==> |r| >= 2 && r[1] != '0'
    ensures n >= 0 ==> (forall i :: 0 <= i < |r| ==> IsDigit(r[i])) && ParseDecimal(r) == n
    ensures n < 0 ==>
      (forall i :: 1 <= i < |r| ==> IsDigit(r[i])) && ParseDecimal(r[1..]) == -n
  {
    ParseNatToString(if n < 0 then -n else n);
    if n < 0 then "-" + NatToString(-n) else NatToString(n)
  }

  /** Reads a string of decimal digits back as a number (most significant
      digit first); the reference reading of `NatToString`. */
  function ParseDecimal(s: string): nat
    requires forall i :: 0 <= i < |s| ==> IsDigit(s[i])
  {
    if s == [] then 0
    else ParseDecimal(s[..|s| - 1]) * 10 + DigitValue(s[|s| - 1])
  }

  /** Rendering a number and reading it back gives the number. */
  lemma {:induction false} ParseNatToString(n: nat)
    ensures ParseDecimal(NatToString(n)) == n
  {
    var r := NatToString(n);
    if n >= 10 {
      ParseNatToString(n / 10);
      assert r[..|r| - 1] == NatToString(n / 10);
    }
  }

  /** Distinct numbers have distinct decimal spellings. */
  lemma NatToStringInjective(a: nat, b: nat)
    requires NatToString(a) == NatToString(b)
    ensures a == b
  {
    ParseNatToString(a);
    ParseNatToString(b);
  }

  // ---------------------------------------------------------------------
  // Array.prototype.join
  // ---------------------------------------------------------------------

  /** `xs.join(sep)`: the elements in order, separated by `sep`; the empty
      array joins to the empty string. */
  function Join(xs: seq<string>, sep: string): (r: string)
    ensures xs == [] ==> r == []
    ensures |xs| == 1 ==> r == xs[0]
  {
    if xs == [] then []
    else if |xs| == 1 then xs[0]
    else xs[0] + sep + Join(xs[1..], sep)
  }

  /** Joining one more element appends it after one separator, so the
      earlier part of a joined text never changes as the array grows. */
  lemma {:induction false} JoinSnoc(xs: seq<string>, x: string, sep: string)
    ensures Join(xs + [x], sep) == if xs == [] then x else Join(xs, sep) + sep + x
  {
    if |xs| >= 2 {
      assert (xs + [x])[1..] == xs[1..] + [x];
      JoinSnoc(xs[1..], x, sep);
    } else if |xs| == 1 {
      assert (xs + [x])[1..] == [x];
    }
  }

  // ---------------------------------------------------------------------
  // Array.prototype.findIndex
  // ---------------------------------------------------------------------

  /** `xs.findIndex(p)`: the first index whose element satisfies `p`, or
      -1 when none does. */
  function FindIndex<T>(xs: seq<T>, p: T -> bool): (r: int)
    ensures -1 <= r < |xs|
    ensures r >= 0 ==> p(xs[r]) && forall j :: 0 <= j < r ==> !p(xs[j])
    ensures r == -1 ==> forall j :: 0 <= j < |xs| ==> !p(xs[j])
  {
    if xs == [] then -1
    else if p(xs[0]) then 0
    else
      var k := FindIndex(xs[1..], p);
      if k == -1 then -1 else k + 1
  }
}

=== FILE: sidebar.dfy ===
/** The catalogue panel's own interaction state: which tab is showing, the
    two text inputs, the chat transcript and the "typing" indicator. The
    asynchronous chat submit is split into two transitions, the submit
    and the arrival of the reply. */
module Sidebar {
  import opened Js
  import opened Types
  import Gemini

  datatype SidebarState = SidebarState(
    activeTab: Tab,
    chatInput: string,
    chatHistory: seq<ChatMessage>,
    isTyping: bool,
    newComment: string)

  /** The character the panel chats with. */
  const CharacterName: string := "Sofia"

  /** The character's opening line, already in the transcript. */
  const Greeting: ChatMessage :=
    ChatMessage(Model, "Olá! Eu sou a Sofia. Você não acredita no que acabei de descobrir sobre meu pai...")

  /** The panel as first rendered. */
  function Initial(): (s: SidebarState)
    ensures s.activeTab == Episodes
    ensures |s.chatHistory| == 1 && s.chatHistory[0].role == Model
    ensures !s.isTyping && s.chatInput == [] && s.newComment == []
  {
    SidebarState(Episodes, [], [Greeting], false, [])
  }

  /** A tab button: only the active tab changes. */
  function SelectTab(s: SidebarState, tab: Tab): (s': SidebarState)
    ensures s'.activeTab == tab
    ensures s'.(activeTab := s.activeTab) == s
  {
    s.(activeTab := tab)
  }

  /** Typing in the chat box. */
  function EditChat(s: SidebarState, text: string): (s': SidebarState)
    ensures s'.chatInput == text && s'.(chatInput := s.chatInput) == s
  {
    s.(chatInput := text)
  }

  /** Typing in the comment box. */
  function EditComment(s: SidebarState, text: string): (s': SidebarState)
    ensures s'.newComment == text && s'.(newComment := s.newComment) == s
  {
    s.(newComment := text)
  }

  /** The request the panel hands to the chat bridge. */
  datatype ChatRequest = ChatRequest(characterName: string, history: seq<ChatMessage>, userMessage: string)

  /** The send button is enabled when the trimmed input is non-empty and
      no reply is pending: the button, not the handler, keeps a second
      request from starting. */
  predicate ChatSendEnabled(s: SidebarState) {
    Trim(s.chatInput) != [] && !s.isTyping
  }

  /** The button is enabled exactly when the input holds a character other
      than whitespace and no reply is pending. */
  lemma SendEnabledIff(s: SidebarState)
    ensures ChatSendEnabled(s) <==> !IsBlank(s.chatInput) && !s.isTyping
  {
    TrimEmptyIffBlank(s.chatInput);
  }

  /** The first half of `handleChatSubmit`: a blank input changes nothing
      and asks nothing; otherwise the input is cleared, the fan's turn is
      appended, the indicator is set, and the bridge is asked with the
      transcript as it was BEFORE the fan's turn. */
  function SubmitChat(s: SidebarState): (r: (SidebarState, Option<ChatRequest>))
    ensures IsBlank(s.chatInput) ==> r.0 == s && r.1 == None
    ensures !IsBlank(s.chatInput) ==>
      r.1 == Some(ChatRequest(CharacterName, s.chatHistory, s.chatInput)) &&
      r.0.chatHistory == s.chatHistory + [ChatMessage(User, s.chatInput)] &&
      r.0.chatInput == [] && r.0.isTyping &&
      r.0.activeTab == s.activeTab && r.0.newComment == s.newComment
  {
    TrimEmptyIffBlank(s.chatInput);
    if Trim(s.chatInput) == [] then (s, None)
    else
      var userMsg := s.chatInput;
      (s.(chatInput := [], chatHistory := s.chatHistory + [ChatMessage(User, userMsg)], isTyping := true),
       Some(ChatRequest(CharacterName, s.chatHistory, userMsg)))
  }

  /** The second half: the indicator is cleared and the character's reply
      is appended after everything already in the transcript. */
  function ReceiveReply(s: SidebarState, response: string): (s': SidebarState)
    ensures !s'.isTyping
    ensures |s'.chatHistory| == |s.chatHistory| + 1
    ensures s'.chatHistory[..|s.chatHistory|] == s.chatHistory
    ensures s'.chatHistory[|s.chatHistory|] == ChatMessage(Model, response)
    ensures s'.chatInput == s.chatInput && s'.newComment == s.newComment && s'.activeTab == s.activeTab
  {
    var h := s.chatHistory + [ChatMessage(Model, response)];
    assert h[..|s.chatHistory|] == s.chatHistory;
    s.(isTyping := false, chatHistory := h)
  }

  /** `handleCommentSubmit`: a blank comment is ignored; otherwise the text
      is reported exactly as typed (not trimmed) and the box is cleared. */
  function SubmitComment(s: SidebarState): (r: (SidebarState, Option<string>))
    ensures IsBlank(s.newComment) ==> r.0 == s && r.1 == None
    ensures !IsBlank(s.newComment) ==>
      r.1 == Some(s.newComment) && r.0 == s.(newComment := [])
  {
    TrimEmptyIffBlank(s.newComment);
    if Trim(s.newComment) == [] then (s, None)
    else (s.(newComment := []), Some(s.newComment))
  }

  /** One whole chat exchange against a bridge with the given key and
      service: the transcript grows by exactly the fan's turn and then the
      character's reply, the earlier turns stay in place, and the reply is
      the bridge's answer to the transcript as it was before the exchange. */
  lemma ChatExchange(s: SidebarState, apiKey: string, service: string -> Gemini.ServiceOutcome)
    requires ChatSendEnabled(s)
    ensures
      var (mid, req) := SubmitChat(s);
      req.Some? &&
      var reply := Gemini.ChatWithCharacter(apiKey, req.value.characterName, req.value.history, req.value.userMessage, service).reply;
      var s' := ReceiveReply(mid, reply);
      s'.chatHistory == s.chatHistory + [ChatMessage(User, s.chatInput), ChatMessage(Model, reply)] &&
      reply == Gemini.ChatWithCharacter(apiKey, CharacterName, s.chatHistory, s.chatInput, service).reply &&
      reply != [] && !s'.isTyping && s'.chatInput == []
  {
    TrimEmptyIffBlank(s.chatInput);
  }

  // ---------------------------------------------------------------------
  // The panel as an event-driven machine
  // ---------------------------------------------------------------------

  /** The user and environment events the panel reacts to. */
  datatype Event =
    | ClickTab(tab: Tab)
    | TypeChat(text: string)
    | PressSend
    | ReplyArrives(text: string)
    | TypeComment(text: string)
    | PressPostComment
    | ClickEpisode(episode: Episode)

  /** What the panel reports outward for one event. */
  datatype Output =
    | Quiet
    | Ask(request: ChatRequest)
    | ReportComment(text: string)
    | ReportEpisode(episode: Episode)

  /** The panel with the number of bridge requests still awaiting a reply. */
  datatype Panel = Panel(state: SidebarState, inFlight: nat)

  /** One event. Pressing a disabled send button does nothing, and a reply
      only arrives for a request that is still awaited. An episode click is
      reported as is: the lock policy is not the panel's. */
  function Step(p: Panel, e: Event): (r: (Panel, Output))
    ensures e.ClickEpisode? ==> r == (p, ReportEpisode(e.episode))
    ensures e.ClickTab? ==> r == (p.(state := SelectTab(p.state, e.tab)), Quiet)
    ensures r.1.Ask? ==> r.0.inFlight == p.inFlight + 1 && ChatSendEnabled(p.state)
    ensures e.PressSend? && !ChatSendEnabled(p.state) ==> r == (p, Quiet)
    ensures e.PressSend? && ChatSendEnabled(p.state) ==>
      r.1 == Ask(ChatRequest(CharacterName, p.state.chatHistory, p.state.chatInput)) &&
      r.0 == Panel(SubmitChat(p.state).0, p.inFlight + 1)
    ensures e.TypeChat? ==> r == (p.(state := EditChat(p.state, e.text)), Quiet)
    ensures e.TypeComment? ==> r == (p.(state := EditComment(p.state, e.text)), Quiet)
    ensures e.ReplyArrives? && p.inFlight == 0 ==> r == (p, Quiet)
    ensures e.ReplyArrives? && p.inFlight > 0 ==>
      r == (Panel(ReceiveReply(p.state, e.text), p.inFlight - 1), Quiet)
    ensures e.PressPostComment? ==>
      r.0 == p.(state := SubmitComment(p.state).0) &&
      r.1 == (if SubmitComment(p.state).1.Some? then ReportComment(SubmitComment(p.state).1.value) else Quiet)
  {
    TrimEmptyIffBlank(p.state.chatInput);
    match e
    case ClickTab(tab) => (p.(state := SelectTab(p.state, tab)), Quiet)
    case TypeChat(text) => (p.(state := EditChat(p.state, text)), Quiet)
    case TypeComment(text) => (p.(state := EditComment(p.state, text)), Quiet)
    case PressSend =>
      if !ChatSendEnabled(p.state) then (p, Quiet)
      else
        var (s', req) := SubmitChat(p.state);
        if req.Some? then (Panel(s', p.inFlight + 1), Ask(req.value)) else (Panel(s', p.inFlight), Quiet)
    case ReplyArrives(text) =>
      if p.inFlight == 0 then (p, Quiet)
      else (Panel(ReceiveReply(p.state, text), p.inFlight - 1), Quiet)
    case PressPostComment =>
      var (s', text) := SubmitComment(p.state);
      (p.(state := s'), if text.Some? then ReportComment(text.value) else Quiet)
    case ClickEpisode(ep) => (p, ReportEpisode(ep))
  }

  /** The panel after a sequence of events. */
  function Run(p: Panel, events: seq<Event>): Panel
    decreases |events|
  {
    if events == [] then p else Run(Step(p, events[0]).0, events[1..])
  }

  /** At most one request is ever awaited, and the typing indicator shows
      exactly while one is. */
  predicate Inv(p: Panel) {
    p.inFlight <= 1 && (p.inFlight == 1 <==> p.state.isTyping)
  }

  lemma StepKeepsInv(p: Panel, e: Event)
    requires Inv(p)
    ensures Inv(Step(p, e).0)
    ensures p.state.chatHistory <= Step(p, e).0.state.chatHistory
  {
    if e.PressSend? && ChatSendEnabled(p.state) {
      TrimEmptyIffBlank(p.state.chatInput);
    }
  }

  /** From the first render, whatever the user does: never two requests at
      once, the indicator tracks the awaited request, and the transcript
      only grows at its end. */
  lemma {:induction false} RunKeepsInv(p: Panel, events: seq<Event>)
    requires Inv(p)
    ensures Inv(Run(p, events))
    ensures p.state.chatHistory <= Run(p, events).state.chatHistory
    decreases |events|
  {
    if events != [] {
      StepKeepsInv(p, events[0]);
      RunKeepsInv(Step(p, events[0]).0, events[1..]);
    }
  }

  /** The first render satisfies the invariant, so from there on, whatever
      the user does, no second request starts while one is awaited and the
      greeting stays the first turn of the transcript. */
  lemma FromFirstRender(events: seq<Event>)
    ensures Inv(Panel(Initial(), 0))
    ensures var p := Run(Panel(Initial(), 0), events);
      Inv(p) && |p.state.chatHistory| >= 1 && p.state.chatHistory[0] == Greeting
  {
    RunKeepsInv(Panel(Initial(), 0), events);
  }

  /** While a reply is awaited the send button starts nothing. */
  lemma NoSecondRequest(p: Panel)
    requires Inv(p) && p.inFlight == 1
    ensures Step(p, PressSend) == (p, Quiet)
  {
  }
}

=== FILE: types.dfy ===
/** The application's record types: one episode of the series, one comment
    in the feed, the series itself, the sidebar's tabs and one turn of the
    character chat. The series' floating-point `rating` is not modelled. */
module Types {

  datatype Episode = Episode(
    id: int,
    title: string,
    thumbnail: string,
    videoUrl: string,
    isLocked: bool,
    views: string,
    duration: string)

  datatype Comment = Comment(
    id: int,
    user: string,
    avatar: string,
    text: string,
    likes: int,
    timestamp: string)

  datatype SeriesData = SeriesData(
    id: string,
    title: string,
    description: string,
    tags: seq<string>,
    cast: seq<string>,
    totalEpisodes: int,
    episodes: seq<Episode>,
    comments: seq<Comment>)

  /** The sidebar's four mutually exclusive views. */
  datatype Tab = Episodes | Details | Comments | AiChat

  /** Who authored a chat turn: the fan (`'user'`) or the character (`'model'`). */
  datatype Role = User | Model

  datatype ChatMessage = ChatMessage(role: Role, text: string)

  /** No two episodes of the list share an id. */
  predicate UniqueIds(eps: seq<Episode>) {
    forall i, j :: 0 <= i < |eps| && 0 <= j < |eps| && eps[i].id == eps[j].id ==> i == j
  }
}

=== FILE: unlock_modal.dfy ===
/** The paywall modal: a pure view of (open?, cost, balance). It either
    renders nothing, offers the single confirm button, or lists the coin
    packages. It owns no state; its buttons only report intents to the
    root coordinator. */
module UnlockModal {
  import opened Js
  import Constants

  /** One package button: "<amount> Moedas", an optional "+<bonus> Bônus"
      badge, and the price label. Package buttons have no click action. */
  datatype PackageRow = PackageRow(amountLabel: string, bonusLabel: Option<string>, price: string)

  datatype ModalView =
    | Hidden
    | ConfirmOffered
    | PackagesOffered(rows: seq<PackageRow>)

  /** What the modal's buttons can report upward. */
  datatype ModalIntent = Close | Confirm

  /** `canAfford`: the balance leaves no shortfall; equality counts as
      affordable. */
  function CanAfford(currentCoins: int, requiredCoins: int): (affordable: bool)
    ensures affordable <==> requiredCoins - currentCoins <= 0
  {
    currentCoins >= requiredCoins
  }

  /** The button rendered for one package. */
  function Row(pkg: Constants.CoinPackage): (row: PackageRow)
    ensures row.bonusLabel.Some? <==> pkg.bonus > 0
    ensures row.price == pkg.price
  {
    PackageRow(
      IntToString(pkg.amount) + " Moedas",
      if pkg.bonus > 0 then Some("+" + IntToString(pkg.bonus) + " Bônus") else None,
      pkg.price)
  }

  /** The package list: one button per package, in catalogue order. */
  function Rows(pkgs: seq<Constants.CoinPackage>): (rows: seq<PackageRow>)
    ensures |rows| == |pkgs|
    ensures forall i :: 0 <= i < |pkgs| ==> rows[i] == Row(pkgs[i])
  {
    if pkgs == [] then [] else [Row(pkgs[0])] + Rows(pkgs[1..])
  }

  /** What the modal shows. */
  function View(isOpen: bool, requiredCoins: int, currentCoins: int): (v: ModalView)
    ensures v.Hidden? <==> !isOpen
    ensures v.ConfirmOffered? <==> isOpen && CanAfford(currentCoins, requiredCoins)
    ensures v.PackagesOffered? ==>
      |v.rows| == |Constants.CoinPackages()| &&
      forall i :: 0 <= i < |v.rows| ==> v.rows[i] == Row(Constants.CoinPackages()[i])
  {
    if !isOpen then Hidden
    else if CanAfford(currentCoins, requiredCoins) then ConfirmOffered
    else PackagesOffered(Rows(Constants.CoinPackages()))
  }

  /** The intents a view lets the user report: close whenever the modal is
      shown, confirm only next to the confirm button. */
  function Offers(v: ModalView): (intents: set<ModalIntent>)
    ensures v.Hidden? <==> intents == {}
    ensures Confirm in intents <==> v.ConfirmOffered?
  {
    match v
    case Hidden => {}
    case ConfirmOffered => {Close, Confirm}
    case PackagesOffered(_) => {Close}
  }

  /** Confirm is reachable exactly when the modal is open and the balance
      covers the cost; an open modal can always be closed. */
  lemma ConfirmReachableIffAffordable(isOpen: bool, requiredCoins: int, currentCoins: int)
    ensures Confirm in Offers(View(isOpen, requiredCoins, currentCoins)) <==>
      isOpen && currentCoins >= requiredCoins
    ensures Close in Offers(View(isOpen, requiredCoins, currentCoins)) <==> isOpen
  {
  }

  /** The package list always shows the three packages; the cheapest has
      no bonus badge and the other two do. */
  lemma PackageBadges(requiredCoins: int, currentCoins: int)
    requires currentCoins < requiredCoins
    ensures var v := View(true, requiredCoins, currentCoins);
      v.PackagesOffered? && |v.rows| == 3 &&
      v.rows[0].bonusLabel.None? && v.rows[1].bonusLabel.Some? && v.rows[2].bonusLabel.Some?
  {
  }
}
